=== FILE: README.md ===
# Lottery number model

A Dafny model of `lotto.domain.Number` from a Java lottery simulation. A lottery
number is an immutable value object that holds an integer in the closed range
[1, 45]. Two factories build lists of numbers:

- `from` converts a list of integers, in order. The first out-of-range element
  makes the whole conversion fail.
- `createUniqueNumbers` asks a number picker for `count` numbers. It checks three
  things, in this order:
  1. Before the picker is asked, a count above 45 (the size of the range) is
     rejected.
  2. Picker output that repeats a value is rejected.
  3. The output goes through `from`, so an out-of-range value is rejected last.

Numbers compare and hash by value. `toString` renders the value in decimal.

Everything is in one module, `LottoNumber` (`number.dfy`). It is written as pure
functions over a `Result` datatype. Each exception class of the source becomes an
`Error` constructor: `OutOfRange`, `CreationCountExceeded` or `Duplicated`. The
picker is a parameter of type `(int, int, int) -> seq<int>`. Apart from the
output being a list of integers (never null, with no null elements), the model
assumes nothing about the picker's output beyond what the code checks.

`new HashSet<>(numbers).size() != numbers.size()` is modelled literally, as
`HasNoDuplicates` (the size of `Elements(s)` against the length of `s`).
`NoDuplicatesIffDistinct` proves that this check is the same as pairwise
distinctness. `Integer.toString` is modelled by `IntToString`. Its partner,
`ParseInt`, reads the string back, and the round trip is proved.

## Model

| member | source | states |
|---|---|---|
| `LottoNumber.Create` | src/main/java/lotto/domain/Number.java:19-28 | succeeds iff 1 <= value <= 45, and then holds exactly that value and is valid; otherwise fails with the out-of-range error carrying (1, 45) |
| `LottoNumber.CreateBoundaries` | src/main/java/lotto/domain/Number.java:24-28 | 0 and 46 are rejected; 1 and 45 are accepted |
| `LottoNumber.From` | src/main/java/lotto/domain/Number.java:30-36 | succeeds iff every element is in [1, 45]; on success the result has the input's length and element i holds input i and is valid (order preserved); on failure the error is out-of-range and no list is returned |
| `LottoNumber.Elements` | src/main/java/lotto/domain/Number.java:56 | the set built from the list holds exactly the list's elements and is no larger than the list |
| `LottoNumber.HasNoDuplicates` | src/main/java/lotto/domain/Number.java:56 | the size comparison between the set and the list; `NoDuplicatesIffDistinct` proves what it means |
| `LottoNumber.NoDuplicatesIffDistinct` | src/main/java/lotto/domain/Number.java:55-59 | the set-size check passes exactly when no two positions of the list hold the same value |
| `LottoNumber.CreateUniqueNumbers` | src/main/java/lotto/domain/Number.java:38-59 | a count above 45 fails with the count-exceeded error carrying 45; otherwise repeated values in the picker output fail with the duplicated error, even when out-of-range values are also present; otherwise the result is exactly `From` of the output, so it fails with out-of-range iff some value is outside [1, 45], and a success has the output's length, pairwise-distinct numbers, element i equal to output i, all valid; the picker is never asked to satisfy a length or count sign |
| `LottoNumber.PickerIgnoredWhenCountExceeded` | src/main/java/lotto/domain/Number.java:41-42 | with a count above 45 the result does not depend on the picker, because the check comes before the picker is called |
| `LottoNumber.OnlyPickerOutputMatters` | src/main/java/lotto/domain/Number.java:42 | the result depends on the picker only through its output for (1, 45, count) |
| `LottoNumber.Number.Equals` | src/main/java/lotto/domain/Number.java:66-72 | true exactly when the argument is a Number with the same value; false for anything else, null included |
| `LottoNumber.Number.HashCode` | src/main/java/lotto/domain/Number.java:74-77 | every object that `equals` this number has the same hash code |
| `LottoNumber.EqualsIsValueEquality` | src/main/java/lotto/domain/Number.java:66-77 | `equals` holds iff the two numbers are the same value; it is reflexive and symmetric and false for a non-Number; equal numbers have equal hash codes |
| `LottoNumber.Number.ToString` | src/main/java/lotto/domain/Number.java:61-64 | the rendering reads back as the value; for a valid number it is one or two decimal digits with no leading zero, which pins the string down uniquely |
| `LottoNumber.Digits` | src/main/java/lotto/domain/Number.java:63 | the decimal digits of a natural number: at least one digit, no leading zero, one digit below 10 and two below 100 |
| `LottoNumber.IntToString` | src/main/java/lotto/domain/Number.java:63 | `Integer.toString`: at least one character, a leading minus sign exactly for negative values, and at least one decimal digit after it, with no leading zero, 0 rendering as the single digit 0; `IntRoundTrip` proves it reads back as the integer |
| `LottoNumber.DigitsRoundTrip` | src/main/java/lotto/domain/Number.java:63 | reading the digits of n back gives n |
| `LottoNumber.IntRoundTrip` | src/main/java/lotto/domain/Number.java:63 | reading the decimal rendering of any integer, negative ones included, gives that integer back |
| `LottoNumber.ToStringExamples` | src/main/java/lotto/domain/Number.java:61-64 | 7 renders as "7" and 45 as "45" |

## Left out

- The null checks of `ParamsValidator.validateParamsNotNull` (lines 31 and 39) are not modelled. Dafny values cannot be null, and the validator is not part of this model.
- A null list from the picker, or a null element in it, is not modelled. In the source it throws `NullPointerException`, either in `new HashSet<>(numbers)` (line 56) or when `Number::new` unboxes the element (line 34); the same unboxing fails for a null element passed to `from`. A Dafny `seq<int>` cannot hold null.
- The `NumberPicker` implementation and its randomness are left out. The picker is an arbitrary total function parameter.
- The exception classes and their messages are left out. They are modelled only as `Error` constructors, with the bounds each one carries.
- Java's 32-bit `int` width is not modelled; the model uses unbounded integers. The code does no arithmetic on the inputs. It only compares them with the constants 1 and 45, so the results are the same for every 32-bit input.
- The model adds no check that the picker returned exactly `count` elements, and none that rejects a negative count, because the code has neither.
- `Lotto`, `WinningLotto`, `Money`, `LottoStatics` and the controller's input/retry/output orchestration are not part of this model.

=== FILE: number.dfy ===
/**
 * A lottery number: an immutable value in the closed range [1, 45], with the
 * factories that build lists of numbers from plain integers and from a number
 * picker, and value-based equality, hashing and decimal rendering.
 */
module LottoNumber {

  /** Smallest and largest value a lottery number may hold. */
  const MinValue: int := 1
  const MaxValue: int := 45

  /** How many distinct numbers the range holds; more cannot be requested. */
  const MaxCreationCount: int := MaxValue - MinValue + 1

  /** The failures of the factories, one per exception class. */
  datatype Error =
    | OutOfRange(min: int, max: int)
    | CreationCountExceeded(maxCount: int)
    | Duplicated

  datatype Result<T> = Ok(get: T) | Err(error: Error)

  predicate InRange(v: int) {
    MinValue <= v <= MaxValue
  }

  predicate AllInRange(numbers: seq<int>) {
    forall i :: 0 <= i < |numbers| ==> InRange(numbers[i])
  }

  /** The argument of `equals`: another lottery number, or anything else (null included). */
  datatype Other = IsNumber(number: Number) | NotNumber

  datatype Number = Number(value: int) {

    /** The invariant every number built by `Create` keeps. */
    predicate Valid() {
      InRange(value)
    }

    /** `equals`: true exactly for another number holding the same value. */
    function Equals(o: Other): (b: bool)
      ensures b <==> o.IsNumber? && o.number.value == value
    {
      match o
      case IsNumber(n) => value == n.value
      case NotNumber => false
    }

    /** `hashCode`: the hash of the boxed value, which is the value itself. */
    function HashCode(): (h: int)
      ensures forall o: Other :: Equals(o) ==> o.number.HashCode() == h
    {
      value
    }

    /** `toString`: the decimal rendering of the value. */
    function ToString(): (s: string)
      ensures Valid() ==> 1 <= |s| <= 2 && IsDigits(s) && s[0] != '0'
      ensures ParseInt(s) == value
    {
      IntRoundTrip(value);
      IntToString(value)
    }
  }

  /** The private constructor with `validateValueInRange`. */
  function Create(value: int): (r: Result<Number>)
    ensures r.Ok? <==> InRange(value)
    ensures r.Ok? ==> r.get.value == value && r.get.Valid()
    ensures r.Err? ==> r.error == OutOfRange(MinValue, MaxValue)
  {
    if value < MinValue || MaxValue < value then Err(OutOfRange(MinValue, MaxValue))
    else Ok(Number(value))
  }

  /**
   * `from`: maps every integer through the constructor, in order; the first
   * out-of-range element aborts the whole conversion.
   */
  function From(numbers: seq<int>): (r: Result<seq<Number>>)
    ensures r.Ok? <==> AllInRange(numbers)
    ensures r.Ok? ==> |r.get| == |numbers|
    ensures r.Ok? ==> forall i :: 0 <= i < |numbers| ==> r.get[i].value == numbers[i] && r.get[i].Valid()
    ensures r.Err? ==> r.error == OutOfRange(MinValue, MaxValue)
  {
    if numbers == [] then Ok([])
    else
      match Create(numbers[0])
      case Err(e) => Err(e)
      case Ok(head) =>
        match From(numbers[1..])
        case Err(e) => Err(e)
        case Ok(tail) => Ok([head] + tail)
  }

  /** The set of elements of a sequence, as `new HashSet<>(numbers)` builds it. */
  function Elements(s: seq<int>): (r: set<int>)
    ensures forall x :: x in r <==> x in s
    ensures |r| <= |s|
  {
    if s == [] then {} else {s[0]} + Elements(s[1..])
  }

  /** The check of `validatePickedNumbersNotDuplicated`: the set is as large as the list. */
  predicate HasNoDuplicates(s: seq<int>) {
    |Elements(s)| == |s|
  }

  /** Reference definition: no two positions hold the same element. */
  predicate Distinct<T(==)>(s: seq<T>) {
    forall i, j :: 0 <= i < j < |s| ==> s[i] != s[j]
  }

  /**
   * A sequence is distinct when its head does not recur and its tail is distinct:
   * the unfolding step that the induction in `NoDuplicatesIffDistinct` calls.
   */
  lemma DistinctCons<T>(s: seq<T>)
    requires s != []
    ensures Distinct(s) <==> s[0] !in s[1..] && Distinct(s[1..])
  {
  }

  /** Comparing the sizes of the set and the list detects exactly the repeated elements. */
  lemma {:induction false} NoDuplicatesIffDistinct(s: seq<int>)
    ensures HasNoDuplicates(s) <==> Distinct(s)
  {
    if s != [] {
      var t := s[1..];
      NoDuplicatesIffDistinct(t);
      DistinctCons(s);
      if s[0] in t {
        assert Elements(s) == Elements(t);
      } else {
        assert s[0] !in Elements(t);
        assert |Elements(s)| == |Elements(t)| + 1;
      }
    }
  }

  /**
   * `createUniqueNumbers`: rejects a count above the size of the range before
   * the picker is asked, then rejects picker output with repeated values, and
   * only then converts the output, so an out-of-range value is reported last.
   * Nothing else is checked: neither the length of the output nor the sign of
   * the count.
   */
  function CreateUniqueNumbers(count: int, picker: (int, int, int) -> seq<int>): (r: Result<seq<Number>>)
    ensures count > MaxCreationCount ==> r == Err(CreationCountExceeded(MaxCreationCount))
    ensures count <= MaxCreationCount && !Distinct(picker(MinValue, MaxValue, count)) ==> r == Err(Duplicated)
    ensures r == Err(OutOfRange(MinValue, MaxValue)) <==>
      count <= MaxCreationCount && Distinct(picker(MinValue, MaxValue, count)) && !AllInRange(picker(MinValue, MaxValue, count))
    ensures r.Ok? <==>
      count <= MaxCreationCount && Distinct(picker(MinValue, MaxValue, count)) && AllInRange(picker(MinValue, MaxValue, count))
    ensures count <= MaxCreationCount && Distinct(picker(MinValue, MaxValue, count)) ==>
      r == From(picker(MinValue, MaxValue, count))
    ensures r.Ok? ==> |r.get| == |picker(MinValue, MaxValue, count)| && Distinct(r.get)
    ensures r.Ok? ==> forall i :: 0 <= i < |r.get| ==>
      r.get[i].value == picker(MinValue, MaxValue, count)[i] && r.get[i].Valid()
  {
    if count > MaxCreationCount then Err(CreationCountExceeded(MaxCreationCount))
    else
      var picked := picker(MinValue, MaxValue, count);
      NoDuplicatesIffDistinct(picked);
      if !HasNoDuplicates(picked) then Err(Duplicated)
      else From(picked)
  }

  /** With a count above the limit, the picker's behaviour does not matter. */
  lemma PickerIgnoredWhenCountExceeded(count: int, p: (int, int, int) -> seq<int>, q: (int, int, int) -> seq<int>)
    requires count > MaxCreationCount
    ensures CreateUniqueNumbers(count, p) == CreateUniqueNumbers(count, q)
  {
  }

  /** The picker is consulted once, for the whole range and the requested count. */
  lemma OnlyPickerOutputMatters(count: int, p: (int, int, int) -> seq<int>, q: (int, int, int) -> seq<int>)
    requires p(MinValue, MaxValue, count) == q(MinValue, MaxValue, count)
    ensures CreateUniqueNumbers(count, p) == CreateUniqueNumbers(count, q)
  {
  }

  /** Numbers are equal exactly when their values are, and equal numbers hash alike. */
  lemma EqualsIsValueEquality(a: Number, b: Number)
    ensures a.Equals(IsNumber(b)) <==> a == b
    ensures a.Equals(IsNumber(b)) ==> a.HashCode() == b.HashCode()
    ensures a.Equals(IsNumber(b)) <==> b.Equals(IsNumber(a))
    ensures a.Equals(IsNumber(a))
    ensures !a.Equals(NotNumber)
  {
  }

  /** The boundaries of the range: 0 and 46 fail, 1 and 45 succeed. */
  lemma CreateBoundaries()
    ensures Create(0) == Err(OutOfRange(1, 45))
    ensures Create(1) == Ok(Number(1))
    ensures Create(45) == Ok(Number(45))
    ensures Create(46) == Err(OutOfRange(1, 45))
  {
  }

  // Decimal rendering, as `Integer.toString` produces it.

  predicate IsDigit(c: char) {
    '0' <= c <= '9'
  }

  predicate IsDigits(s: string) {
    forall i :: 0 <= i < |s| ==> IsDigit(s[i])
  }

  function DigitChar(d: int): (c: char)
    requires 0 <= d < 10
    ensures IsDigit(c)
  {
    "0123456789"[d]
  }

  function DigitValue(c: char): int {
    c as int - '0' as int
  }

  /** The digits of `n`, most significant first, without leading zeros. */
  function Digits(n: nat): (s: string)
    ensures 1 <= |s| && IsDigits(s)
    ensures s[0] == '0' ==> n == 0
    ensures n < 10 ==> |s| == 1
    ensures 10 <= n < 100 ==> |s| == 2
  {
    if n < 10 then [DigitChar(n)] else Digits(n / 10) + [DigitChar(n % 10)]
  }

  /** Reads a string of decimal digits back into the number it denotes. */
  function ParseDigits(s: string): int {
    if s == [] then 0 else 10 * ParseDigits(s[..|s| - 1]) + DigitValue(s[|s| - 1])
  }

  /** `Integer.toString`: a minus sign exactly for negative values, then the digits. */
  function IntToString(i: int): (r: string)
    ensures 1 <= |r| && (r[0] == '-' <==> i < 0)
    ensures IsDigits(if i < 0 then r[1..] else r)
    ensures var d := if i < 0 then r[1..] else r; 1 <= |d| && (d[0] == '0' ==> i == 0 && |d| == 1)
  {
    if i < 0 then "-" + Digits(-i) else Digits(i)
  }

  function ParseInt(s: string): int {
    if s != [] && s[0] == '-' then -ParseDigits(s[1..]) else ParseDigits(s)
  }

  lemma {:induction false} DigitsRoundTrip(n: nat)
    ensures ParseDigits(Digits(n)) == n
  {
    var s := Digits(n);
    if n < 10 {
      assert s[..0] == [];
      assert DigitValue(s[0]) == n;
    } else {
      DigitsRoundTrip(n / 10);
      assert s[..|s| - 1] == Digits(n / 10);
      assert DigitValue(s[|s| - 1]) == n % 10;
    }
  }

  /** The rendering of any integer reads back as that integer. */
  lemma IntRoundTrip(i: int)
    ensures ParseInt(IntToString(i)) == i
  {
    if i < 0 {
      DigitsRoundTrip(-i);
      assert IntToString(i)[1..] == Digits(-i);
    } else {
      DigitsRoundTrip(i);
    }
  }

  lemma ToStringExamples()
    ensures Number(7).ToString() == "7"
    ensures Number(45).ToString() == "45"
  {
  }
}
